=== FILE: README.md ===
# hookworm webhook core in Dafny

A functional model of the decision logic of hookworm's `webhook.py`, a small
Flask service that receives GitHub push notifications and launches a deploy
script. The model covers:

- the **change classifier**: a push is meaningful when some commit modified
  some non-empty path that does not end in `.md`;
- the **signature check**: with `GITHUB_SECRET` set, the text after the last
  `=` of `X-Hub-Signature-256` must equal the hex HMAC of the body;
- the **`/webhook` dispatcher**: push timestamp first, then signature, then
  `ping` / `push` / other events, then the launch of the deploy script and
  the recording of the pushed commit in `.last_commit`;
- the **log views** of the dashboard: the newest log lines first, the `/logs`
  page, and the last fifty lines of the deployment output;
- the **update check**: whether the head of `main` on GitHub differs from the
  commit recorded in `.last_commit`.

Files, the clock, the HMAC, `subprocess.Popen` and the GitHub API are inputs:
the persisted files are fields of `Journal.Store`, the computed digest and the
fate of the spawn and of the `.last_commit` write are a `Webhook.Env`, file
reads are datatypes holding the lines read or the error raised, and the
GitHub answer is an `Updates.Fetch`.

Modules: `Base` (option type), `Text` (Python's `endswith`, `strip`, `split`,
`join` on strings), `Journal` (log messages and stored state), `Classifier`,
`Signature`, `LogTail`, `Updates`, `Webhook`.

Facts about the code that the model keeps as they are: the ignored suffix is
the fixed, case-sensitive `.md`; there is no deploy-in-progress lock and no
deployment history; a missing signature header reads as the empty string and
is refused only because it differs from the digest; and a failure writing
`.last_commit` after a successful launch is answered 500 "deploy failed"
although the script is already running (`Webhook.CommitWriteFailure`). Opening
`.last_commit` with mode `'w'` empties it before the write, so a write that
raises after the open leaves the file empty, while an open that raises leaves
it as it was (`Webhook.WriteResult`).

## Model

| member | source | states |
|---|---|---|
| Text.IsSpace | webhook.py:66 | the characters `strip()` removes: among ASCII exactly tab, line feed, vertical tab, form feed, carriage return, the four separators `\x1c`-`\x1f` and space; zero-width space and the byte-order mark are not among them, and none lies above U+3000 |
| Text.Strip | webhook.py:95 | `line.strip()` returns a contiguous piece of the line with only whitespace cut from either end, and the piece starts and ends with a non-whitespace character |
| Text.StripExact | webhook.py:95 | for any whitespace `a`, `b` and trimmed `m`, stripping `a + m + b` gives exactly `m`: the piece `strip()` keeps is unique |
| Text.StripIdempotent | webhook.py:95 | stripping twice equals stripping once |
| Text.StripTrimmed | webhook.py:66 | a string with no whitespace at either end, such as a commit id written to `.last_commit`, comes back unchanged from `strip()` |
| Text.EndsWith | webhook.py:178 | `endswith` holds exactly when the suffix fits and agrees character by character with the end of the string, which is then the rest followed by the suffix |
| Text.Split | webhook.py:159 | `split('=')` gives at least one piece, no piece holds `=`, and there is exactly one piece, the whole string, exactly when the string holds no `=` |
| Text.SplitLast | webhook.py:159 | the last piece of `split('=')` is the text after the last `=`: a suffix free of `=` that is the whole string or follows an `=` |
| Text.JoinSplit | webhook.py:159 | joining the pieces of `split('=')` with `=` gives back the header, so nothing is lost |
| Text.SplitJoin | webhook.py:159 | splitting a join of `=`-free pieces gives back those pieces |
| Text.AfterLastUnique | webhook.py:159 | at most one suffix of a string is free of the separator and either the whole string or preceded by the separator |
| Text.Concat | webhook.py:109 | `''.join` of no lines is the empty string; for a non-empty list it starts with the first line, ends with the last, and is as long as all the lines together |
| Text.ConcatSnoc | webhook.py:109 | the join of a non-empty list is the join of all but the last line followed by the last line |
| Classifier.ModifiedPaths | webhook.py:177 | `commit.get('modified', [])` is the listed paths when the key is present and the empty list when it is missing |
| Classifier.CommitsOf | webhook.py:174 | `request.json.get('commits', [])` is the listed commits when the key is present and the empty list when it is missing |
| Classifier.Counts | webhook.py:177-178 | a path counts exactly when it is non-empty and its last three characters are not `.`, `m`, `d` |
| Classifier.AnyCountingPath | webhook.py:177-178 | the inner `any` holds exactly when some modified path is non-empty and does not end in `.md` |
| Classifier.IsMeaningful | webhook.py:174-179 | a push is meaningful exactly when some commit has some counting path; a missing `commits` or `modified` key reads as an empty list |
| Classifier.MeaningfulAppend | webhook.py:175-179 | the verdict for two runs of commits put together is the disjunction of the verdicts for each |
| Classifier.DocumentationOnlyIsNotMeaningful | webhook.py:175-181 | no commits, or commits whose paths are all empty or end in `.md`, is not meaningful |
| Classifier.OneCountingPathSuffices | webhook.py:175-179 | one counting path in any commit makes the push meaningful |
| Classifier.Examples | webhook.py:175-178 | `[]` and `["README.md"]` are not meaningful, `["README.md","app.py"]` is; the suffix test is case-sensitive (`README.MD` counts) and an empty path does not count |
| Signature.Accepts | webhook.py:158-164 | with no secret every request passes; with a secret, a request passes exactly when the computed digest is the text after the last `=` of the header, read as empty when missing |
| Signature.Extract | webhook.py:159 | the provided signature is the text after the last `=` of the header, the whole header when it holds no `=`, and empty when the header is missing |
| Signature.ExtractPrefixed | webhook.py:159 | a header `<prefix>=<hex>` with no `=` in `<hex>` yields `<hex>` |
| Signature.ExtractMissing | webhook.py:159 | a missing header yields the empty signature |
| Signature.OpenModeAcceptsAll | webhook.py:158 | with an empty secret every header passes |
| Signature.SignedHeader | webhook.py:158-164 | with a secret set, `sha256=<hex>` passes exactly when `<hex>` equals the computed digest |
| Signature.MissingHeaderRefused | webhook.py:158-164 | with a secret set, a missing header is refused whenever the digest is non-empty |
| Journal.MessageText | webhook.py:163-203 | the texts of the log lines, those at webhook.py:48, 76, 97, 104 and 111 included; no two messages share a text, since decoding any message's text gives that message back |
| Journal.MessagesCarryDetails | webhook.py:169-203 | the ping entry starts with `Ping`, and the ignored-event, deploy-failure, update-check, log-read and deployment-log entries end with the event name or error text they report |
| Journal.Record | webhook.py:84-88 | logging appends the messages in order, each stamped with the current time, keeps every earlier entry and changes no other stored value |
| LogTail.PyTail | webhook.py:95 | `lines[-count:]` is a suffix of the lines, the last `min(count, len)` of them for `count >= 1`, all of them for `count == 0`, and drops `-count` from the front for negative `count` |
| LogTail.Reverse | webhook.py:95 | `[::-1]` keeps the length and puts element `len-1-k` at position `k` |
| LogTail.StripAll | webhook.py:95 | the comprehension strips every line and keeps their number and order |
| LogTail.RecentLogs | webhook.py:90-98 | on a read, exactly the last `count` lines (or all when fewer), stripped and newest first, and nothing logged; on a failed read, no lines and one "Failed to read logs" entry |
| LogTail.DashboardLogs | webhook.py:134 | the dashboard shows at most five lines, the newest log line first |
| LogTail.LogsPage | webhook.py:142-148 | the `/logs` page shows at most one hundred lines, all of them for a shorter log, and no lines with one log entry on a failed read |
| LogTail.ConcatTail | webhook.py:109 | joining a tail of the file's lines gives a suffix of the file's text |
| LogTail.DeploymentOutput | webhook.py:100-112 | the deployment output is the last fifty lines of `deploy.log` (all of them when fewer) joined, hence a suffix of the file's text; a missing or unreadable file gives the fixed explanatory text and one log entry |
| Updates.UniversalNewlines | webhook.py:65-66 | text mode reads back no carriage return, returns a text without one unchanged, and never lengthens it |
| Updates.LoneCarriageReturns | webhook.py:65-66 | in a text where no `\r` is followed by `\n`, text mode turns each `\r` into `\n` in place and keeps every other character |
| Updates.CrLfIsOneNewline | webhook.py:65-66 | a `\r\n` anywhere in a text reads back as a single `\n`, with the text on either side read as it would be alone |
| Updates.CarriageReturnsReadAsNewlines | webhook.py:65-66 | a lone `\r` and a `\r\n` both read back as `\n` |
| Updates.StoredCommitOf | webhook.py:63-68 | the update check sees no file exactly when no commit was recorded, and otherwise the recorded text as text mode reads it: unchanged when it holds no carriage return |
| Updates.CheckUpdates | webhook.py:45-77 | the flag is `None` exactly when no token is set or fetching or reading failed, `False` exactly when the stripped stored commit equals the remote sha; an unknown result is logged once, as the missing-token notice or as "Failed to check GitHub updates" with the error of the step that failed first |
| Updates.StrippedDifferenceMeansUpdate | webhook.py:66-73 | with a token set and a fetched head, a stored commit whose stripped text differs from the sha is reported as an update |
| Updates.CarriageReturnMeansUpdate | webhook.py:63-73 | a recorded commit holding a carriage return reads back without one, so the update check against that very sha always reports an update |
| Updates.DifferentHeadMeansUpdate | webhook.py:71-73 | a stored commit that is trimmed and differs from the remote sha is reported as an update |
| Updates.NeverDeployedMeansUpdate | webhook.py:62-73 | with no `.last_commit` file any fetched head is reported as an update |
| Webhook.Status | webhook.py:170-204 | each JSON body carries one of the five statuses, `ignored` exactly for the ignored push and `deploy failed` exactly for the failed deploy; the 403 carries its description |
| Webhook.HasAfter | webhook.py:193-194 | `after` is truthy exactly when present and non-empty: a missing key and the empty string are both falsy |
| Webhook.EventOf | webhook.py:166 | the event is the `X-GitHub-Event` header when present and `ping` when missing |
| Webhook.Deploy | webhook.py:188-201 | the launch is always attempted; 200 `deployment triggered` exactly when it succeeds and a truthy `after` was written (or there was none); otherwise 500 with the launch error or the write error; the recorded commit becomes `after` on a write, empty on a write failing after the open, and stays otherwise; the trigger entry is logged on a launch and the failure entry on a 500 |
| Webhook.Handle | webhook.py:152-204 | every request moves the push timestamp and logs at least once without touching older entries; 403 exactly on a configured secret with a mismatching signature; the script is launched exactly for an accepted meaningful push; 500 exactly for "deploy failed"; 200 exactly for the `pong`, `ignored`, `deployment triggered` and `ignored event` statuses; the recorded commit only changes after a launch with a truthy `after`, to `after` on a 200 and to empty when the write failed after the open |
| Webhook.RefusedRequest | webhook.py:155-164 | a refused request answers 403, launches nothing, moves the push timestamp, logs one warning and keeps the recorded commit |
| Webhook.OpenModeNeverRefuses | webhook.py:157-158 | with no secret configured no request gets a 403 |
| Webhook.PingIsPong | webhook.py:166-170 | a `ping`, or a missing event header, is answered 200 `pong` whatever the body, launching nothing |
| Webhook.OtherEventIgnored | webhook.py:203-204 | any other event name, the empty one included, is answered 200 `ignored event` and logged by name |
| Webhook.QuietPushIgnored | webhook.py:174-186 | a push without a counting path is answered 200 `ignored` with its reason, launches nothing and keeps the recorded commit |
| Webhook.LaunchedPush | webhook.py:188-198 | a meaningful push whose script launches, and whose `after` is absent or written, is answered 200 `deployment triggered`, and the recorded commit becomes `after` exactly when `after` is present and non-empty |
| Webhook.FailedLaunch | webhook.py:188-201 | a meaningful push whose launch raises is answered 500 `deploy failed` with the error and keeps the recorded commit |
| Webhook.CommitOpenFailure | webhook.py:188-201 | when the launch succeeds but opening `.last_commit` raises, the reply is 500 `deploy failed` with that error, the recorded commit is kept, and both the trigger and the failure are logged |
| Webhook.CommitWriteFailure | webhook.py:188-201 | when the launch succeeds but writing `.last_commit` raises after the open, the reply is 500 `deploy failed` with that error, the recorded commit is left empty, and both the trigger and the failure are logged |
| Webhook.EmptiedCommitMeansUpdate | webhook.py:62-73 | after such an emptied `.last_commit`, the update check reports an update for any non-empty remote head |
| Webhook.DocumentationPushScenario | webhook.py:172-186 | a push touching only `docs/readme.md` is ignored with 200 and keeps the recorded commit |
| Webhook.CodePushScenario | webhook.py:172-198 | a push touching `src/main.go` with `after` `deadbeef` is triggered and records `deadbeef` |
| Webhook.BadSignatureScenario | webhook.py:158-164 | with a secret set, `sha256=0000` against a different digest is refused with 403 and launches nothing |
| Webhook.DeployedHeadIsCurrent | webhook.py:192-196 | after a deploy that recorded a trimmed `after` without carriage returns, the update check against that same head reports no update |
| Webhook.CarriageReturnHeadLooksNew | webhook.py:63-73 | a push in open mode that deploys `after` `a\rb` records it, and the update check against that same head then reports an update |

## Left out

- Flask routing, `jsonify`, `render_template`, the dashboard view and the `/test` manual trigger: HTTP and UI plumbing around the core.
- `initialize_application` and `load_dotenv`: start-up file system checks and environment loading.
- File I/O: the persisted files are `Journal.Store` fields; reading a file is an input datatype holding its lines, its text or the error raised. Writing is taken to leave the text as it is, as on a POSIX system; reading `.last_commit` back applies text mode's newline translation (`Updates.UniversalNewlines`).
- Updates.StoredCommitOf: never yields a read error for a recorded commit; a failing read of `.last_commit` is modelled only as the `CommitFileError` input of `Updates.CheckUpdates`.
- Failures of `save_timestamp` and `log`: the model assumes every call succeeds. Most raise out of their function and Flask answers 500, but two are caught: a failing `log` at webhook.py:190 is caught at webhook.py:199, and if the `log` at webhook.py:200 then succeeds the reply is 500 `deploy failed` with the script already launched and `.last_commit` not written; a failing `log` at webhook.py:104 is caught at webhook.py:110, and if the `log` at webhook.py:111 then succeeds the view returns the "Error reading deployment log" text. When the `log` inside the `except` fails as well, the exception escapes and Flask answers its generic 500.
- A push whose body is not JSON: Werkzeug answers 400 for unparsable JSON and, from version 2.1, 400 (from 2.3, 415) for a request whose content type is not JSON; older versions return `None` and the `.get` call raises, giving 500. The model takes the parsed payload as its input.
- Malformed JSON shapes such as `commits` or `modified` set to `null`, a commit that is not an object, or a path that is not a string: these are not modelled. They raise inside the classifier only when the scan reaches them: both `any` calls stop at the first counting path, so `{"commits": [{"modified": ["a.py", null]}]}` and `{"commits": [{"modified": ["a.py"]}, null]}` raise nothing and the push deploys.
- The HMAC-SHA256 computation: the hex digest of the body is the input `Env.digest`.
- `hmac.compare_digest`: modelled as equality; its constant-time behaviour is not expressible, and the `TypeError` it raises for a header with non-ASCII characters is not modelled.
- `subprocess.Popen`: only whether it raised is an input; the deploy script runs detached and its completion is never observed by the code.
- The GitHub API request: its outcome is the input `Updates.Fetch`.
- Updates.CheckUpdates: the `requests.get` at webhook.py:58 has no timeout, so the check can block forever and never return; the model assumes the request returns, with a response or an exception.
- `datetime.utcnow()` and its two string formats: a time is the opaque `Journal.Instant`, and one `Instant` stands for every clock read of a request (webhook.py:82 and webhook.py:86 read the clock separately, so the real timestamps of one request may differ by the time between the reads).
- Concurrency: the code has no lock or in-progress flag, so no at-most-one-deploy property is stated.
- The rendered log line format `[timestamp] message` and the split of `webhook.log` back into lines: the log views work on the list of lines directly.

=== FILE: base.dfy ===
/** Small shared vocabulary: an optional value and integer minimum. */
module Base {

  /** A value that may be absent: a missing JSON key, header or file. */
  datatype Option<+T> = None | Some(value: T) {

    /** The carried value, or `default` when absent (Python's `dict.get(key, default)`). */
    function GetOr(default: T): T {
      match this
      case Some(v) => v
      case None => default
    }
  }

  function Min(a: int, b: int): int {
    if a <= b then a else b
  }
}

=== FILE: classifier.dfy ===
/**
 The change classifier of the push handler (webhook.py:174-179): a push is
 worth a deploy when some commit modified some path that is non-empty and
 does not end in `.md`.
 */
module Classifier {
  import opened Base
  import Text

  /** One entry of the push payload's `commits` list; `modified` is `None` when the key is absent. */
  datatype Commit = Commit(modified: Option<seq<string>>)

  /** The parts of a push payload the core reads; an absent key is `None`. */
  datatype Payload = Payload(commits: Option<seq<Commit>>, after: Option<string>)

  /** The suffix whose files never warrant a deploy. */
  const IgnoredSuffix := ".md"

  /** `commit.get('modified', [])`. */
  function ModifiedPaths(c: Commit): (paths: seq<string>)
    ensures c.modified.None? ==> paths == []
    ensures c.modified.Some? ==> paths == c.modified.value
  {
    c.modified.GetOr([])
  }

  /** `request.json.get('commits', [])`. */
  function CommitsOf(p: Payload): (commits: seq<Commit>)
    ensures p.commits.None? ==> commits == []
    ensures p.commits.Some? ==> commits == p.commits.value
  {
    p.commits.GetOr([])
  }

  /**
   A path counts when it is truthy (non-empty) and `endswith('.md')` is
   false; the suffix test is case-sensitive.
   */
  predicate Counts(path: string): (b: bool)
    ensures b <==> path != [] && !(|path| >= 3 && path[|path| - 3] == '.' && path[|path| - 2] == 'm' && path[|path| - 1] == 'd')
  {
    assert IgnoredSuffix[0] == '.' && IgnoredSuffix[1] == 'm' && IgnoredSuffix[2] == 'd';
    path != [] && !Text.EndsWith(path, IgnoredSuffix)
  }

  /** The inner `any(...)` over one commit's modified paths. */
  function AnyCountingPath(paths: seq<string>): (b: bool)
    ensures b <==> exists j :: 0 <= j < |paths| && Counts(paths[j])
  {
    if paths == [] then false
    else Counts(paths[0]) || AnyCountingPath(paths[1..])
  }

  /** The declarative reading: some commit has some counting path. */
  ghost predicate HasCountingChange(commits: seq<Commit>) {
    exists i, j :: 0 <= i < |commits| && 0 <= j < |ModifiedPaths(commits[i])| && Counts(ModifiedPaths(commits[i])[j])
  }

  /**
   The outer `any(commit for commit in commits if ...)`. A commit that
   passes the filter holds a `modified` key and so is a non-empty, truthy
   dict; the outer `any` therefore only asks whether one passes.
   */
  function IsMeaningful(commits: seq<Commit>): (b: bool)
    ensures b <==> HasCountingChange(commits)
  {
    if commits == [] then false
    else
      var here := AnyCountingPath(ModifiedPaths(commits[0]));
      var later := IsMeaningful(commits[1..]);
      assert later <==> HasCountingChange(commits[1..]);
      assert HasCountingChange(commits) <==> here || HasCountingChange(commits[1..]) by {
        if HasCountingChange(commits) {
          var i, j :| 0 <= i < |commits| && 0 <= j < |ModifiedPaths(commits[i])| && Counts(ModifiedPaths(commits[i])[j]);
          if i > 0 {
            assert commits[1..][i - 1] == commits[i];
          }
        }
        if HasCountingChange(commits[1..]) {
          var i, j :| 0 <= i < |commits[1..]| && 0 <= j < |ModifiedPaths(commits[1..][i])| && Counts(ModifiedPaths(commits[1..][i])[j]);
          assert commits[i + 1] == commits[1..][i];
        }
        if here {
          var j :| 0 <= j < |ModifiedPaths(commits[0])| && Counts(ModifiedPaths(commits[0])[j]);
        }
      }
      here || later
  }

  /** Which commits appear, not their order or grouping, decides the outcome. */
  lemma MeaningfulAppend(xs: seq<Commit>, ys: seq<Commit>)
    ensures IsMeaningful(xs + ys) <==> IsMeaningful(xs) || IsMeaningful(ys)
  {
    var zs := xs + ys;
    if HasCountingChange(zs) {
      var i, j :| 0 <= i < |zs| && 0 <= j < |ModifiedPaths(zs[i])| && Counts(ModifiedPaths(zs[i])[j]);
      if i >= |xs| {
        assert ys[i - |xs|] == zs[i];
      }
    }
    if HasCountingChange(ys) {
      var i, j :| 0 <= i < |ys| && 0 <= j < |ModifiedPaths(ys[i])| && Counts(ModifiedPaths(ys[i])[j]);
      assert zs[|xs| + i] == ys[i];
    }
    if HasCountingChange(xs) {
      var i, j :| 0 <= i < |xs| && 0 <= j < |ModifiedPaths(xs[i])| && Counts(ModifiedPaths(xs[i])[j]);
      assert zs[i] == xs[i];
    }
  }

  /** No commits, or only commits touching empty or `.md` paths, is no meaningful change. */
  lemma DocumentationOnlyIsNotMeaningful(commits: seq<Commit>)
    requires forall i, j :: 0 <= i < |commits| && 0 <= j < |ModifiedPaths(commits[i])| ==>
      ModifiedPaths(commits[i])[j] == [] || Text.EndsWith(ModifiedPaths(commits[i])[j], IgnoredSuffix)
    ensures !IsMeaningful(commits)
  {
  }

  /** A single counting path anywhere in the push is enough. */
  lemma OneCountingPathSuffices(commits: seq<Commit>, i: nat, j: nat)
    requires i < |commits| && j < |ModifiedPaths(commits[i])|
    requires Counts(ModifiedPaths(commits[i])[j])
    ensures IsMeaningful(commits)
  {
  }

  /** A push of one commit is meaningful exactly when that commit has a counting path. */
  lemma SingleCommit(paths: seq<string>)
    ensures IsMeaningful([Commit(Some(paths))]) == AnyCountingPath(paths)
  {
    assert [Commit(Some(paths))][1..] == [];
  }

  lemma ReadmeIsDocumentation()
    ensures !Counts("README.md") && !Counts("docs/readme.md")
  {
  }

  lemma CodeCounts()
    ensures Counts("app.py") && Counts("src/main.go") && Counts("README.MD")
  {
  }

  /** Worked examples of the classifier, including its edge cases. */
  lemma Examples()
    ensures !IsMeaningful([])
    ensures !IsMeaningful([Commit(Some(["README.md"]))])
    ensures IsMeaningful([Commit(Some(["README.md", "app.py"]))])
    ensures !IsMeaningful([Commit(Some(["docs/readme.md"]))])
    ensures IsMeaningful([Commit(Some(["src/main.go"]))])
    ensures IsMeaningful([Commit(Some(["README.MD"]))])
    ensures !IsMeaningful([Commit(Some([""])), Commit(None)])
  {
    var blank := [Commit(Some([""])), Commit(None)];
    assert ModifiedPaths(blank[0]) == [""] && ModifiedPaths(blank[1]) == [];
    DocumentationOnlyIsNotMeaningful(blank);
    ReadmeIsDocumentation();
    CodeCounts();
    SingleCommit(["README.md"]);
    SingleCommit(["README.md", "app.py"]);
    SingleCommit(["docs/readme.md"]);
    SingleCommit(["src/main.go"]);
    SingleCommit(["README.MD"]);
    assert ["README.md", "app.py"][1] == "app.py";
  }
}

=== FILE: journal.dfy ===
/**
 The webhook's persisted state and its operational log: the `.last_push`
 timestamp file, the `.last_commit` file and the append-only `webhook.log`.
 Files are plain fields here; reading and writing them is not modelled.
 */
module Journal {
  import opened Base
  import Text

  /** A point in time as `datetime.utcnow()` returns it; its formatting is not modelled. */
  datatype Instant = Instant(seconds: int)

  /** Every message the core writes with `log(...)`. */
  datatype LogMessage =
    | InvalidSignature
    | PingReceived
    | NoMeaningfulChanges
    | DeployTriggered
    | DeployScriptFailed(error: string)
    | IgnoredEvent(event: string)
    | PatNotConfigured
    | UpdateCheckFailed(error: string)
    | ReadLogsFailed(error: string)
    | DeploymentLogMissing
    | DeploymentLogReadFailed(error: string)

  /** Where the deploy script writes its output. */
  const DeploymentLogPath := "/home/prod/devops/deploy.log"

  const InvalidSignatureText := "\U{26A0}\U{FE0F} Invalid signature received"
  const PingText := "Ping received"
  // The two longest texts are written in two pieces: the verifier cannot
  // look up the first characters of a single literal this long.
  const NoChangesText := "Push received but " + "no meaningful changes detected"
  const DeployTriggeredText := "\U{1F680} Deployment triggered via webhook"
  const PatMissingText := "GitHub PAT not configured " + "- skipping update check"
  const DeploymentLogMissingText := "Deployment log file not found at " + DeploymentLogPath
  const DeployFailedPrefix := "Failed to execute deploy script: "
  const IgnoredEventPrefix := "Ignored event: "
  const UpdateFailedPrefix := "Failed to check GitHub updates: "
  const ReadLogsPrefix := "Failed to read logs: "
  const DeploymentLogFailedPrefix := "Failed to read deployment log: "

  /**
   The text each message puts after the `[timestamp] ` prefix of its log
   line. No two messages share a text: `Decode` reads every one back.
   */
  function MessageText(m: LogMessage): (t: string)
    ensures Decode(t) == Some(m)
  {
    match m
    case InvalidSignature => InvalidSignatureText
    case PingReceived => PingText
    case NoMeaningfulChanges =>
      assert |NoChangesText| != |PingText|;
      NoChangesText
    case DeployTriggered => DeployTriggeredText
    case DeployScriptFailed(e) =>
      Prefixed(DeployFailedPrefix, e);
      assert (DeployFailedPrefix + e)[0] == 'F';
      DeployFailedPrefix + e
    case IgnoredEvent(ev) =>
      Prefixed(IgnoredEventPrefix, ev);
      assert (IgnoredEventPrefix + ev)[0] == 'I';
      IgnoredEventPrefix + ev
    case PatNotConfigured => PatMissingText
    case UpdateCheckFailed(e) =>
      Prefixed(UpdateFailedPrefix, e);
      assert (UpdateFailedPrefix + e)[0] == 'F' && (UpdateFailedPrefix + e)[10] == 'c';
      UpdateFailedPrefix + e
    case ReadLogsFailed(e) =>
      Prefixed(ReadLogsPrefix, e);
      assert (ReadLogsPrefix + e)[0] == 'F' && (ReadLogsPrefix + e)[10] == 'r';
      ReadLogsPrefix + e
    case DeploymentLogMissing => DeploymentLogMissingText
    case DeploymentLogReadFailed(e) =>
      Prefixed(DeploymentLogFailedPrefix, e);
      assert (DeploymentLogFailedPrefix + e)[0] == 'F' && (DeploymentLogFailedPrefix + e)[10] == 'r';
      assert (DeploymentLogFailedPrefix + e)[15] == 'd';
      DeploymentLogFailedPrefix + e
  }

  /** A detail after a prefix: the prefix starts the text, the rest is the detail, and the first characters are the prefix's. */
  lemma Prefixed(p: string, d: string)
    ensures p <= p + d
    ensures (p + d)[|p|..] == d
    ensures forall k :: 0 <= k < |p| ==> (p + d)[k] == p[k]
  {
  }

  /**
   Recovers the message from a log text: one of the fixed texts, or a known
   prefix followed by its detail. The first character narrows the choice.
   */
  function Decode(t: string): Option<LogMessage> {
    if t == [] then None
    else if t[0] == 'F' then
      if DeployFailedPrefix <= t then Some(DeployScriptFailed(t[|DeployFailedPrefix|..]))
      else if UpdateFailedPrefix <= t then Some(UpdateCheckFailed(t[|UpdateFailedPrefix|..]))
      else if ReadLogsPrefix <= t then Some(ReadLogsFailed(t[|ReadLogsPrefix|..]))
      else if DeploymentLogFailedPrefix <= t then Some(DeploymentLogReadFailed(t[|DeploymentLogFailedPrefix|..]))
      else None
    else if t[0] == 'I' then
      if IgnoredEventPrefix <= t then Some(IgnoredEvent(t[|IgnoredEventPrefix|..])) else None
    else if t == InvalidSignatureText then Some(InvalidSignature)
    else if t == PingText then Some(PingReceived)
    else if t == NoChangesText then Some(NoMeaningfulChanges)
    else if t == DeployTriggeredText then Some(DeployTriggered)
    else if t == PatMissingText then Some(PatNotConfigured)
    else if t == DeploymentLogMissingText then Some(DeploymentLogMissing)
    else None
  }

  /**
   The log says what happened: the ping line starts with "Ping", and the
   lines about an ignored event or a failure end with the event name or the
   exception text.
   */
  lemma MessagesCarryDetails(detail: string)
    ensures MessageText(PingReceived)[..4] == "Ping"
    ensures Text.EndsWith(MessageText(IgnoredEvent(detail)), detail)
    ensures Text.EndsWith(MessageText(DeployScriptFailed(detail)), detail)
    ensures Text.EndsWith(MessageText(UpdateCheckFailed(detail)), detail)
    ensures Text.EndsWith(MessageText(ReadLogsFailed(detail)), detail)
    ensures Text.EndsWith(MessageText(DeploymentLogReadFailed(detail)), detail)
  {
  }

  datatype LogEntry = LogEntry(at: Instant, message: LogMessage)

  /**
   The durable state: `lastPush` is the `.last_push` file, `lastCommit`
   the contents of `.last_commit` (`None` while that file does not exist),
   and `log` the entries of `webhook.log`, oldest first.
   */
  datatype Store = Store(lastPush: Option<Instant>, lastCommit: Option<string>, log: seq<LogEntry>)

  /** Appends `msgs`, in order and all stamped `now`, to the log; nothing else changes. */
  function Record(st: Store, now: Instant, msgs: seq<LogMessage>): (r: Store)
    ensures r.lastPush == st.lastPush && r.lastCommit == st.lastCommit
    ensures |r.log| == |st.log| + |msgs| && r.log[..|st.log|] == st.log
    ensures forall k :: 0 <= k < |msgs| ==> r.log[|st.log| + k] == LogEntry(now, msgs[k])
  {
    st.(log := st.log + seq(|msgs|, k requires 0 <= k < |msgs| => LogEntry(now, msgs[k])))
  }
}

=== FILE: logtail.dfy ===
/**
 The bounded views of the log files the dashboard shows:
 `get_recent_logs` (webhook.py:90-98), the `/logs` page (webhook.py:142-148)
 and `get_last_deployment_output` (webhook.py:100-112). A file is given as
 the list `readlines()` returns, or as the error its reading raised.
 */
module LogTail {
  import opened Base
  import Text
  import opened Journal

  /** The outcome of `open(path).readlines()`. */
  datatype LinesRead = Lines(lines: seq<string>) | ReadError(error: string)

  /** The outcome of reading `deploy.log`, whose existence is checked first. */
  datatype DeployLog = DeployLogMissing | DeployLogLines(lines: seq<string>) | DeployLogError(error: string)

  /** Lines for display, and the messages written to `webhook.log` while producing them. */
  datatype LogView = LogView(entries: seq<string>, logged: seq<LogMessage>)

  datatype OutputView = OutputView(text: string, logged: seq<LogMessage>)

  /** How many entries the dashboard, the `/logs` page and the deployment output show. */
  const DashboardLogCount := 5
  const LogsPageCount := 100
  const DeploymentOutputLines := 50

  /**
   Python's `xs[-count:]`, for every integer `count`: the result is always
   a suffix of `xs`; for `count >= 1` it is the last `count` elements (all
   of them when there are fewer); `-0` is `0`, so `count == 0` keeps the
   whole list; a negative `count` drops the first `-count` elements.
   */
  function PyTail<T>(xs: seq<T>, count: int): (r: seq<T>)
    ensures |r| <= |xs| && r == xs[|xs| - |r|..]
    ensures count >= 1 ==> |r| == Min(count, |xs|)
    ensures count == 0 ==> r == xs
    ensures count < 0 ==> |r| == |xs| - Min(-count, |xs|)
  {
    var start := -count;
    var from :=
      if start < 0 then (if start + |xs| < 0 then 0 else start + |xs|)
      else (if start > |xs| then |xs| else start);
    xs[from..]
  }

  /** `xs[::-1]`. */
  function Reverse<T>(xs: seq<T>): (r: seq<T>)
    ensures |r| == |xs|
    ensures forall k :: 0 <= k < |xs| ==> r[k] == xs[|xs| - 1 - k]
  {
    if xs == [] then [] else Reverse(xs[1..]) + [xs[0]]
  }

  /** `[line.strip() for line in xs]`. */
  function StripAll(xs: seq<string>): (r: seq<string>)
    ensures |r| == |xs| && forall k :: 0 <= k < |xs| ==> r[k] == Text.Strip(xs[k])
  {
    seq(|xs|, k requires 0 <= k < |xs| => Text.Strip(xs[k]))
  }

  /**
   `get_recent_logs(count)`: on a successful read, the last `count` lines
   of the log (fewer when the log is shorter), stripped and newest first;
   on a failed read, no lines and one "Failed to read logs" entry.
   */
  function RecentLogs(read: LinesRead, count: int): (v: LogView)
    ensures read.ReadError? ==> v == LogView([], [ReadLogsFailed(read.error)])
    ensures read.Lines? ==> v.logged == []
    ensures read.Lines? && count >= 1 ==>
      && |v.entries| == Min(count, |read.lines|)
      && forall k :: 0 <= k < |v.entries| ==> v.entries[k] == Text.Strip(read.lines[|read.lines| - 1 - k])
    ensures read.Lines? && count == 0 ==> |v.entries| == |read.lines|
  {
    match read
    case ReadError(e) => LogView([], [ReadLogsFailed(e)])
    case Lines(ls) => LogView(StripAll(Reverse(PyTail(ls, count))), [])
  }

  /** The dashboard's log panel, `get_recent_logs()` with its default count of five. */
  function DashboardLogs(read: LinesRead): (v: LogView)
    ensures |v.entries| <= DashboardLogCount
    ensures read.Lines? && read.lines != [] ==> v.entries != [] && v.entries[0] == Text.Strip(read.lines[|read.lines| - 1])
  {
    RecentLogs(read, DashboardLogCount)
  }

  /** The `/logs` page: the same slicing inline, with a count of one hundred. */
  function LogsPage(read: LinesRead): (v: LogView)
    ensures |v.entries| <= LogsPageCount
    ensures read.Lines? && |read.lines| <= LogsPageCount ==> |v.entries| == |read.lines|
    ensures read.ReadError? ==> v.entries == [] && v.logged == [ReadLogsFailed(read.error)]
  {
    RecentLogs(read, LogsPageCount)
  }

  /** Taking a tail of the lines takes a suffix of the file's text. */
  lemma ConcatTail(lines: seq<string>, k: nat)
    requires k <= |lines|
    ensures Text.EndsWith(Text.Concat(lines), Text.Concat(lines[k..]))
  {
    assert lines == lines[..k] + lines[k..];
    Text.ConcatAppend(lines[..k], lines[k..]);
  }

  /**
   `get_last_deployment_output()`: the last fifty lines of `deploy.log`
   joined, which is a suffix of the file and all of it when the file is
   that short; a missing or unreadable file gives an explanatory text and
   one log entry.
   */
  function DeploymentOutput(f: DeployLog): (v: OutputView)
    ensures f.DeployLogLines? ==>
      && v.logged == []
      && v.text == Text.Concat(f.lines[|f.lines| - Min(DeploymentOutputLines, |f.lines|)..])
      && Text.EndsWith(Text.Concat(f.lines), v.text)
      && (|f.lines| <= DeploymentOutputLines ==> v.text == Text.Concat(f.lines))
    ensures f.DeployLogMissing? ==>
      v == OutputView("No deployment log file found (expected at: " + DeploymentLogPath + ")", [DeploymentLogMissing])
    ensures f.DeployLogError? ==>
      v == OutputView("Error reading deployment log: " + f.error, [DeploymentLogReadFailed(f.error)])
  {
    match f
    case DeployLogMissing =>
      OutputView("No deployment log file found (expected at: " + DeploymentLogPath + ")", [DeploymentLogMissing])
    case DeployLogError(e) =>
      OutputView("Error reading deployment log: " + e, [DeploymentLogReadFailed(e)])
    case DeployLogLines(ls) =>
      var tail := PyTail(ls, DeploymentOutputLines);
      ConcatTail(ls, |ls| - |tail|);
      OutputView(Text.Concat(tail), [])
  }
}

=== FILE: signature.dfy ===
/**
 Signature-header handling of the webhook (webhook.py:158-164). The
 HMAC-SHA256 hex digest of the body is computed outside the model and
 passed in as `digest`; `hmac.compare_digest` is string equality.
 */
module Signature {
  import opened Base
  import Text

  /** `request.headers.get('X-Hub-Signature-256', '').split('=')[-1]`. */
  function Extract(header: Option<string>): (sig: string)
    ensures Text.AfterLast(header.GetOr(""), '=', sig)
  {
    var parts := Text.Split(header.GetOr(""), '=');
    Text.SplitLast(header.GetOr(""), '=');
    Text.LastPiece(parts)
  }

  /**
   Whether the request gets past the signature check: always when no
   secret is configured (open mode), otherwise exactly when the extracted
   value equals the computed digest.
   */
  predicate Accepts(secret: string, header: Option<string>, digest: string): (ok: bool)
    ensures secret == [] ==> ok
    ensures secret != [] ==> (ok <==> Text.AfterLast(header.GetOr(""), '=', digest))
  {
    if secret == [] then true
    else
      var sig := Extract(header);
      assert Text.AfterLast(header.GetOr(""), '=', digest) ==> sig == digest by {
        if Text.AfterLast(header.GetOr(""), '=', digest) {
          Text.AfterLastUnique(header.GetOr(""), '=', sig, digest);
        }
      }
      sig == digest
  }

  /** The header GitHub sends, `sha256=<hex>`, yields `<hex>`. */
  lemma ExtractPrefixed(prefix: string, hex: string)
    requires '=' !in hex
    ensures Extract(Some(prefix + "=" + hex)) == hex
  {
    var s := prefix + "=" + hex;
    assert s[|s| - |hex|..] == hex;
    assert s[|s| - |hex| - 1] == '=';
    Text.AfterLastUnique(s, '=', Extract(Some(s)), hex);
  }

  /** A missing header reads as the empty signature. */
  lemma ExtractMissing()
    ensures Extract(None) == ""
  {
  }

  /** Open mode: with no secret configured, every header passes. */
  lemma OpenModeAcceptsAll(header: Option<string>, digest: string)
    ensures Accepts("", header, digest)
  {
  }

  /**
   With a secret configured, a correctly prefixed header passes exactly
   when its hex part is the digest; any other hex part is refused.
   */
  lemma SignedHeader(secret: string, hex: string, digest: string)
    requires secret != []
    requires '=' !in hex
    ensures Accepts(secret, Some("sha256=" + hex), digest) <==> hex == digest
  {
    ExtractPrefixed("sha256", hex);
  }

  /** With a secret configured, a missing header is refused whenever the digest is non-empty (a hex digest always is). */
  lemma MissingHeaderRefused(secret: string, digest: string)
    requires secret != [] && digest != []
    ensures !Accepts(secret, None, digest)
  {
  }
}

=== FILE: text.dfy ===
/**
 The few Python `str` operations the webhook relies on, with their
 CPython meaning: `endswith`, `strip()` (over the characters `isspace`
 accepts), `split(sep)` and `''.join`.
 */
module Text {

  /**
   `s.endswith(suffix)`: a case-sensitive suffix test; it holds exactly when
   `s` is some prefix followed by `suffix`, character for character.
   */
  predicate EndsWith(s: string, suffix: string): (b: bool)
    ensures b <==> |suffix| <= |s| && forall k :: 0 <= k < |suffix| ==> s[|s| - |suffix| + k] == suffix[k]
    ensures b ==> s == s[..|s| - |suffix|] + suffix
  {
    |suffix| <= |s| && s[|s| - |suffix|..] == suffix
  }

  /** The characters for which CPython's `str.isspace()` holds, i.e. those `str.strip()` removes. */
  predicate IsSpace(c: char): (b: bool)
    ensures c as int < 0x80 ==> (b <==> c in {'\t', '\n', '\U{B}', '\U{C}', '\r', '\U{1C}', '\U{1D}', '\U{1E}', '\U{1F}', ' '})
    ensures c == '\U{200B}' || c == '\U{FEFF}' ==> !b
    ensures b ==> c as int <= 0x3000
  {
    || ('\t' <= c <= '\r')
    || ('\U{1C}' <= c <= '\U{1F}')
    || c == ' '
    || c == '\U{85}'
    || c == '\U{A0}'
    || c == '\U{1680}'
    || ('\U{2000}' <= c <= '\U{200A}')
    || c == '\U{2028}'
    || c == '\U{2029}'
    || c == '\U{202F}'
    || c == '\U{205F}'
    || c == '\U{3000}'
  }

  /** No whitespace at either end: what `strip()` is meant to produce. */
  predicate Trimmed(s: string) {
    s == [] || (!IsSpace(s[0]) && !IsSpace(s[|s| - 1]))
  }

  /** The number of whitespace characters `s` starts with. */
  function LeadingSpace(s: string): (n: nat)
    ensures n <= |s|
    ensures forall k :: 0 <= k < n ==> IsSpace(s[k])
    ensures n < |s| ==> !IsSpace(s[n])
  {
    if |s| > 0 && IsSpace(s[0]) then 1 + LeadingSpace(s[1..]) else 0
  }

  /** The number of whitespace characters `s` ends with. */
  function TrailingSpace(s: string): (n: nat)
    ensures n <= |s|
    ensures forall k :: |s| - n <= k < |s| ==> IsSpace(s[k])
    ensures n < |s| ==> !IsSpace(s[|s| - n - 1])
  {
    if |s| > 0 && IsSpace(s[|s| - 1]) then 1 + TrailingSpace(s[..|s| - 1]) else 0
  }

  /** A whitespace run followed by a non-space (or the end) has exactly that length. */
  lemma LeadingSpaceIs(s: string, n: nat)
    requires n <= |s|
    requires forall k :: 0 <= k < n ==> IsSpace(s[k])
    requires n < |s| ==> !IsSpace(s[n])
    ensures LeadingSpace(s) == n
  {
    var l := LeadingSpace(s);
    if l < n {
      assert false;
    } else if n < l {
      assert false;
    }
  }

  lemma TrailingSpaceIs(s: string, n: nat)
    requires n <= |s|
    requires forall k :: |s| - n <= k < |s| ==> IsSpace(s[k])
    requires n < |s| ==> !IsSpace(s[|s| - n - 1])
    ensures TrailingSpace(s) == n
  {
    var t := TrailingSpace(s);
    if t < n {
      assert false;
    } else if n < t {
      assert false;
    }
  }

  /** `s` is `r` with only whitespace around it, `r` starting at index `i`. */
  predicate Surrounds(s: string, i: int, r: string) {
    && 0 <= i <= |s| - |r|
    && s[i..i + |r|] == r
    && (forall k :: 0 <= k < i ==> IsSpace(s[k]))
    && (forall k :: i + |r| <= k < |s| ==> IsSpace(s[k]))
  }

  /**
   `s.strip()`: the result is a contiguous piece of `s`, only whitespace
   was cut away on either side, and the result itself is trimmed.
   */
  function Strip(s: string): (r: string)
    ensures exists i :: Surrounds(s, i, r)
    ensures Trimmed(r)
  {
    var a := LeadingSpace(s);
    var b := TrailingSpace(s[a..]);
    var r := s[a..|s| - b];
    assert Surrounds(s, a, r) by {
      forall k | a + |r| <= k < |s|
        ensures IsSpace(s[k])
      {
        assert s[k] == s[a..][k - a];
      }
    }
    assert r != [] ==> r[|r| - 1] == s[a..][|s[a..]| - b - 1];
    r
  }

  /**
   An independent characterisation of `strip()`: cutting whitespace `a`
   and `b` from around a trimmed `m` gives back exactly `m`.
   */
  lemma StripExact(a: string, m: string, b: string)
    requires forall k :: 0 <= k < |a| ==> IsSpace(a[k])
    requires forall k :: 0 <= k < |b| ==> IsSpace(b[k])
    requires Trimmed(m)
    ensures Strip(a + m + b) == m
  {
    var s := a + m + b;
    if m == [] {
      assert forall k :: 0 <= k < |s| ==> IsSpace(s[k]) by {
        forall k | 0 <= k < |s|
          ensures IsSpace(s[k])
        {
          if k < |a| { assert s[k] == a[k]; } else { assert s[k] == b[k - |a|]; }
        }
      }
      LeadingSpaceIs(s, |s|);
      assert s[|s|..] == [];
    } else {
      assert s[|a|] == m[0];
      LeadingSpaceIs(s, |a|);
      var t := s[|a|..];
      assert t == m + b;
      assert t[|m| - 1] == m[|m| - 1];
      TrailingSpaceIs(t, |b|);
      assert s[|a|..|s| - |b|] == m;
    }
  }

  /** `strip()` leaves an already trimmed string alone. */
  lemma StripTrimmed(s: string)
    requires Trimmed(s)
    ensures Strip(s) == s
  {
    assert [] + s + [] == s;
    StripExact([], s, []);
  }

  /** `strip()` is idempotent. */
  lemma StripIdempotent(s: string)
    ensures Strip(Strip(s)) == Strip(s)
  {
    StripTrimmed(Strip(s));
  }

  /** `s.split(sep)` for a one-character separator, with CPython's semantics. */
  function Split(s: string, sep: char): (parts: seq<string>)
    ensures |parts| >= 1
    ensures forall k :: 0 <= k < |parts| ==> sep !in parts[k]
    ensures |parts| == 1 <==> sep !in s
    ensures |parts| == 1 ==> parts[0] == s
    decreases |s|
  {
    if |s| == 0 then [""]
    else
      var rest := Split(s[1..], sep);
      if s[0] == sep then
        [""] + rest
      else
        [[s[0]] + rest[0]] + rest[1..]
  }

  /** `sep.join(parts)`. */
  function Join(parts: seq<string>, sep: char): string
    requires |parts| >= 1
  {
    if |parts| == 1 then parts[0] else parts[0] + [sep] + Join(parts[1..], sep)
  }

  /**
   `r` is the part of `s` after its last `sep`: a suffix of `s` free of
   `sep` that is either all of `s` or directly preceded by `sep`.
   */
  predicate AfterLast(s: string, sep: char, r: string) {
    EndsWith(s, r) && sep !in r && (|r| == |s| || s[|s| - |r| - 1] == sep)
  }

  /** At most one string is the part after the last separator. */
  lemma AfterLastUnique(s: string, sep: char, r1: string, r2: string)
    requires AfterLast(s, sep, r1) && AfterLast(s, sep, r2)
    ensures r1 == r2
  {
    assert |r1| == |r2| by {
      if |r1| < |r2| {
        assert false;
      } else if |r2| < |r1| {
        assert false;
      }
    }
  }

  /** The part after the last separator of `s[1..]` is also that of `s`, unless it is all of `s[1..]` and `s[0]` is no separator. */
  lemma AfterLastCons(s: string, sep: char, last: string)
    requires |s| > 0 && AfterLast(s[1..], sep, last)
    requires |last| < |s| - 1 || s[0] == sep
    ensures AfterLast(s, sep, last)
  {
    var t := s[1..];
    assert s[|s| - |last|..] == t[|t| - |last|..];
    assert |last| < |t| ==> s[|s| - |last| - 1] == t[|t| - |last| - 1];
  }

  /** The last element of a non-empty list of pieces. */
  function LastPiece(parts: seq<string>): string
    requires |parts| >= 1
  {
    parts[|parts| - 1]
  }

  /** A leading separator adds an empty first piece and keeps the last one. */
  lemma SplitLastSep(s: string, sep: char)
    requires |s| > 0 && s[0] == sep
    requires AfterLast(s[1..], sep, LastPiece(Split(s[1..], sep)))
    ensures AfterLast(s, sep, LastPiece(Split(s, sep)))
  {
    var rest := Split(s[1..], sep);
    assert Split(s, sep) == [""] + rest;
    AfterLastCons(s, sep, LastPiece(rest));
  }

  /** A string without separators is its own single piece. */
  lemma SplitLastWhole(s: string, sep: char)
    requires |s| > 0 && s[0] != sep && |Split(s[1..], sep)| == 1
    ensures AfterLast(s, sep, LastPiece(Split(s, sep)))
  {
    var rest := Split(s[1..], sep);
    assert Split(s, sep) == [[s[0]] + rest[0]];
    assert rest[0] == s[1..];
    assert [s[0]] + s[1..] == s;
    assert sep !in s[1..];
  }

  /** With a separator after the first character, the last piece comes from the rest. */
  lemma SplitLastInner(s: string, sep: char)
    requires |s| > 0 && s[0] != sep && |Split(s[1..], sep)| > 1
    requires AfterLast(s[1..], sep, LastPiece(Split(s[1..], sep)))
    ensures AfterLast(s, sep, LastPiece(Split(s, sep)))
  {
    var t := s[1..];
    var rest := Split(t, sep);
    var last := LastPiece(rest);
    assert Split(s, sep) == [[s[0]] + rest[0]] + rest[1..];
    assert LastPiece(Split(s, sep)) == last;
    assert sep in t;
    assert sep !in last;
    assert last != t;
    assert |last| < |t|;
    AfterLastCons(s, sep, last);
  }

  /** The last piece of `split(sep)` is the part after the last separator. */
  lemma {:induction false} SplitLast(s: string, sep: char)
    ensures AfterLast(s, sep, LastPiece(Split(s, sep)))
    decreases |s|
  {
    if |s| > 0 {
      SplitLast(s[1..], sep);
      if s[0] == sep {
        SplitLastSep(s, sep);
      } else if |Split(s[1..], sep)| == 1 {
        SplitLastWhole(s, sep);
      } else {
        SplitLastInner(s, sep);
      }
    }
  }

  /** Joining the pieces of a split gives back the string: nothing is lost. */
  lemma {:induction false} JoinSplit(s: string, sep: char)
    ensures Join(Split(s, sep), sep) == s
    decreases |s|
  {
    if |s| > 0 {
      var t := s[1..];
      var rest := Split(t, sep);
      var parts := Split(s, sep);
      JoinSplit(t, sep);
      assert Join(rest, sep) == t;
      assert s == [s[0]] + t;
      if s[0] == sep {
        assert parts == [""] + rest;
        assert parts[1..] == rest;
        assert Join(parts, sep) == "" + [sep] + Join(rest, sep);
      } else if |rest| == 1 {
        assert parts == [[s[0]] + rest[0]];
        assert Join(parts, sep) == [s[0]] + rest[0];
      } else {
        assert parts == [[s[0]] + rest[0]] + rest[1..];
        assert parts[1..] == rest[1..];
        assert Join(rest, sep) == rest[0] + [sep] + Join(rest[1..], sep);
        assert Join(parts, sep) == ([s[0]] + rest[0]) + [sep] + Join(rest[1..], sep);
        assert Join(parts, sep) == [s[0]] + (rest[0] + [sep] + Join(rest[1..], sep));
      }
    }
  }

  lemma {:induction false} SplitPrepend(p: string, t: string, sep: char)
    requires sep !in p
    ensures Split(p + t, sep) == [p + Split(t, sep)[0]] + Split(t, sep)[1..]
    decreases |p|
  {
    var u := Split(t, sep);
    if p == [] {
      assert p + t == t;
      assert p + u[0] == u[0];
      assert u == [u[0]] + u[1..];
    } else {
      assert (p + t)[0] == p[0] && p[0] != sep;
      assert (p + t)[1..] == p[1..] + t;
      SplitPrepend(p[1..], t, sep);
      var rest := Split(p[1..] + t, sep);
      assert rest == [p[1..] + u[0]] + u[1..];
      assert Split(p + t, sep) == [[p[0]] + rest[0]] + rest[1..];
      assert rest[0] == p[1..] + u[0];
      assert rest[1..] == u[1..];
      ConsAppend(p, u[0]);
      var head := [p[0]] + rest[0];
      assert head == p + u[0];
      assert Split(p + t, sep) == [head] + u[1..];
    }
  }

  lemma ConsAppend(p: string, v: string)
    requires p != []
    ensures [p[0]] + (p[1..] + v) == p + v
  {
    assert [p[0]] + p[1..] == p;
  }

  /** Splitting a join of separator-free pieces gives the pieces back. */
  lemma {:induction false} SplitJoin(parts: seq<string>, sep: char)
    requires |parts| >= 1
    requires forall k :: 0 <= k < |parts| ==> sep !in parts[k]
    ensures Split(Join(parts, sep), sep) == parts
    decreases |parts|
  {
    if |parts| == 1 {
      SplitPrepend(parts[0], "", sep);
      assert parts[0] + "" == parts[0];
    } else {
      var tail := Join(parts[1..], sep);
      SplitJoin(parts[1..], sep);
      assert ([sep] + tail)[1..] == tail;
      assert Split([sep] + tail, sep) == [""] + parts[1..];
      assert parts[0] + [sep] + tail == parts[0] + ([sep] + tail);
      SplitPrepend(parts[0], [sep] + tail, sep);
      assert parts[0] + "" == parts[0];
    }
  }

  /** The total number of characters in `lines`. */
  function TotalLength(lines: seq<string>): nat {
    if lines == [] then 0 else |lines[0]| + TotalLength(lines[1..])
  }

  /**
   `''.join(lines)`: the lines one after another, so the text starts with
   the first line, ends with the last, and is exactly as long as all of
   them together.
   */
  function Concat(lines: seq<string>): (r: string)
    ensures lines == [] ==> r == ""
    ensures lines != [] ==> lines[0] <= r && EndsWith(r, lines[|lines| - 1])
    ensures |r| == TotalLength(lines)
  {
    if lines == [] then ""
    else
      var rest := Concat(lines[1..]);
      assert |lines| == 1 ==> lines[0] + rest == lines[0];
      EndsWithPrepend(lines[0], rest, lines[|lines| - 1]);
      lines[0] + rest
  }

  /** Putting text in front keeps a suffix. */
  lemma EndsWithPrepend(p: string, s: string, suffix: string)
    ensures EndsWith(s, suffix) ==> EndsWith(p + s, suffix)
  {
    if EndsWith(s, suffix) {
      assert (p + s)[|p + s| - |suffix|..] == s[|s| - |suffix|..];
    }
  }

  /** The join of a non-empty list is the join of all but its last line, followed by the last line. */
  lemma ConcatSnoc(lines: seq<string>)
    requires lines != []
    ensures Concat(lines) == Concat(lines[..|lines| - 1]) + lines[|lines| - 1]
  {
    var init, last := lines[..|lines| - 1], lines[|lines| - 1];
    assert lines == init + [last];
    ConcatAppend(init, [last]);
    assert Concat([last]) == last + Concat([]);
  }

  lemma {:induction false} ConcatAppend(xs: seq<string>, ys: seq<string>)
    ensures Concat(xs + ys) == Concat(xs) + Concat(ys)
    decreases |xs|
  {
    if xs == [] {
      assert xs + ys == ys;
    } else {
      assert (xs + ys)[1..] == xs[1..] + ys;
      ConcatAppend(xs[1..], ys);
    }
  }
}

=== FILE: updates.dfy ===
/**
 The dashboard's "update available" flag, `check_github_updates`
 (webhook.py:45-77): compares the head of `main` on GitHub with the commit
 last recorded by the webhook. The HTTP call is an input.
 */
module Updates {
  import opened Base
  import Text
  import opened Journal

  /**
   What the GitHub request produced: a failure before the body was parsed
   (`requests.get`, `raise_for_status`, `.json()`), a body without a `sha`
   key (the `KeyError` is only raised at the comparison), or a sha.
   */
  datatype Fetch = FetchFailed(error: string) | ShaMissing(error: string) | Fetched(sha: string)

  /** The `.last_commit` file: absent, its text, or the error reading it raised. */
  datatype StoredCommit = NoCommitFile | CommitFile(text: string) | CommitFileError(error: string)

  /** `None`, `False` or `True`, and the messages logged while deciding. */
  datatype UpdateCheck = UpdateCheck(available: Option<bool>, logged: seq<LogMessage>)

  /**
   What reading a file in Python's text mode returns for the text written
   to it: universal newlines turn every `"\r\n"` and every other `'\r'`
   into `'\n'`. Writing on a POSIX system leaves `'\n'` as it is, so this
   is the whole difference between the text written and the text read.
   */
  function UniversalNewlines(s: string): (r: string)
    ensures '\r' !in r
    ensures '\r' !in s ==> r == s
    ensures |r| <= |s|
  {
    if s == [] then []
    else if s[0] == '\r' && |s| >= 2 && s[1] == '\n' then "\n" + UniversalNewlines(s[2..])
    else if s[0] == '\r' then "\n" + UniversalNewlines(s[1..])
    else
      assert s == [s[0]] + s[1..];
      [s[0]] + UniversalNewlines(s[1..])
  }

  /**
   How the stored state appears to the update check (webhook.py:63-68): no
   file when nothing was recorded, otherwise the recorded text as text mode
   reads it back. Reading the file is assumed to succeed here.
   */
  function StoredCommitOf(st: Store): (c: StoredCommit)
    ensures c.NoCommitFile? <==> st.lastCommit.None?
    ensures !c.CommitFileError?
    ensures c.CommitFile? ==> '\r' !in c.text
    ensures st.lastCommit.Some? && '\r' !in st.lastCommit.value ==> c == CommitFile(st.lastCommit.value)
  {
    match st.lastCommit
    case None => NoCommitFile
    case Some(text) => CommitFile(UniversalNewlines(text))
  }

  /**
   Where no `'\r'` is followed by `'\n'`, text mode replaces each `'\r'`
   by `'\n'` in place and keeps every other character.
   */
  lemma {:induction false} LoneCarriageReturns(s: string)
    requires forall k :: 0 <= k < |s| - 1 && s[k] == '\r' ==> s[k + 1] != '\n'
    ensures |UniversalNewlines(s)| == |s|
    ensures forall k :: 0 <= k < |s| ==> UniversalNewlines(s)[k] == (if s[k] == '\r' then '\n' else s[k])
  {
    if s != [] {
      LoneCarriageReturns(s[1..]);
      var head := if s[0] == '\r' then '\n' else s[0];
      assert UniversalNewlines(s) == [head] + UniversalNewlines(s[1..]);
    }
  }

  /** One step of text mode on a text that does not start with `"\r\n"`. */
  lemma NewlineStep(s: string)
    requires s != [] && !(s[0] == '\r' && |s| >= 2 && s[1] == '\n')
    ensures UniversalNewlines(s) == [if s[0] == '\r' then '\n' else s[0]] + UniversalNewlines(s[1..])
  {
  }

  /** Regrouping a concatenation of three texts. */
  lemma Assoc(x: string, y: string, z: string)
    ensures (x + y) + z == x + (y + z)
  {
  }

  /** Dropping a front part of `x` from `x + y`. */
  lemma DropConcat(x: string, y: string, n: nat)
    requires n <= |x|
    ensures (x + y)[n..] == x[n..] + y
  {
  }

  /** A `"\r\n"` anywhere reads back as one `'\n'`, whatever surrounds it. */
  lemma {:induction false} CrLfIsOneNewline(a: string, b: string)
    ensures UniversalNewlines(a + "\r\n" + b) == UniversalNewlines(a) + "\n" + UniversalNewlines(b)
    decreases |a|
  {
    var s := a + "\r\n" + b;
    if a == [] {
      assert a + "\r\n" == "\r\n";
      DropConcat("\r\n", b, 2);
      assert s[0] == '\r' && s[1] == '\n' && s[2..] == b;
      assert UniversalNewlines(a) + "\n" == "\n";
    } else if a[0] == '\r' && |a| >= 2 && a[1] == '\n' {
      CrLfIsOneNewline(a[2..], b);
      CrLfAfterCrLf(a, b);
    } else {
      CrLfIsOneNewline(a[1..], b);
      CrLfAfterOther(a, b);
    }
  }

  /** The inductive step of `CrLfIsOneNewline` when `a` starts with `"\r\n"`. */
  lemma CrLfAfterCrLf(a: string, b: string)
    requires |a| >= 2 && a[0] == '\r' && a[1] == '\n'
    requires UniversalNewlines(a[2..] + "\r\n" + b) == UniversalNewlines(a[2..]) + "\n" + UniversalNewlines(b)
    ensures UniversalNewlines(a + "\r\n" + b) == UniversalNewlines(a) + "\n" + UniversalNewlines(b)
  {
    var s, u, v := a + "\r\n" + b, UniversalNewlines(a[2..]), UniversalNewlines(b);
    Assoc(a, "\r\n", b);
    DropConcat(a, "\r\n" + b, 2);
    Assoc(a[2..], "\r\n", b);
    assert s[0] == '\r' && s[1] == '\n' && s[2..] == a[2..] + "\r\n" + b;
    assert UniversalNewlines(s) == "\n" + ((u + "\n") + v);
    assert UniversalNewlines(a) == "\n" + u;
    Assoc("\n", u + "\n", v);
    Assoc("\n", u, "\n");
  }

  /** The inductive step of `CrLfIsOneNewline` when `a` starts with anything else. */
  lemma CrLfAfterOther(a: string, b: string)
    requires a != [] && !(a[0] == '\r' && |a| >= 2 && a[1] == '\n')
    requires UniversalNewlines(a[1..] + "\r\n" + b) == UniversalNewlines(a[1..]) + "\n" + UniversalNewlines(b)
    ensures UniversalNewlines(a + "\r\n" + b) == UniversalNewlines(a) + "\n" + UniversalNewlines(b)
  {
    var s, u, v := a + "\r\n" + b, UniversalNewlines(a[1..]), UniversalNewlines(b);
    var h := [if a[0] == '\r' then '\n' else a[0]];
    Assoc(a, "\r\n", b);
    DropConcat(a, "\r\n" + b, 1);
    Assoc(a[1..], "\r\n", b);
    assert s[0] == a[0] && s[1..] == a[1..] + "\r\n" + b;
    assert s[1] == (if |a| == 1 then '\r' else a[1]);
    NewlineStep(a);
    NewlineStep(s);
    assert UniversalNewlines(s) == h + ((u + "\n") + v);
    Assoc(h, u + "\n", v);
    Assoc(h, u, "\n");
  }

  /** A lone `'\r'` and a `"\r\n"` both read back as `'\n'`. */
  lemma CarriageReturnsReadAsNewlines()
    ensures UniversalNewlines("a\rb") == "a\nb"
    ensures UniversalNewlines("a\r\nb") == "a\nb"
  {
  }

  /**
   The flag is unknown (`None`) exactly when no token is configured or a
   step failed; otherwise it is `False` exactly when the stored commit,
   stripped, equals the remote sha. An unknown result always leaves one
   log entry; a known one leaves none.
   */
  function CheckUpdates(pat: Option<string>, fetch: Fetch, stored: StoredCommit): (r: UpdateCheck)
    ensures r.available.None? <==>
      pat.GetOr("") == [] || !fetch.Fetched? || stored.CommitFileError?
    ensures r.available == Some(false) <==>
      pat.GetOr("") != [] && fetch.Fetched? && stored.CommitFile? && Text.Strip(stored.text) == fetch.sha
    ensures pat.GetOr("") == [] ==> r.logged == [PatNotConfigured]
    ensures |r.logged| == (if r.available.None? then 1 else 0)
    ensures pat.GetOr("") != [] && r.available.None? ==>
      r.logged == [UpdateCheckFailed(if stored.CommitFileError? && !fetch.FetchFailed? then stored.error else fetch.error)]
  {
    if pat.GetOr("") == [] then
      UpdateCheck(None, [PatNotConfigured])
    else
      match (fetch, stored)
      case (FetchFailed(e), _) => UpdateCheck(None, [UpdateCheckFailed(e)])
      case (_, CommitFileError(e)) => UpdateCheck(None, [UpdateCheckFailed(e)])
      case (ShaMissing(e), _) => UpdateCheck(None, [UpdateCheckFailed(e)])
      case (Fetched(sha), NoCommitFile) => UpdateCheck(Some(true), [])
      case (Fetched(sha), CommitFile(text)) => UpdateCheck(Some(Text.Strip(text) != sha), [])
  }

  /** A recorded commit that, once stripped, differs from the head is an update. */
  lemma StrippedDifferenceMeansUpdate(pat: string, sha: string, text: string)
    requires pat != [] && Text.Strip(text) != sha
    ensures CheckUpdates(Some(pat), Fetched(sha), CommitFile(text)).available == Some(true)
  {
  }

  /** A recorded commit that reads back trimmed and different from the head is an update. */
  lemma DifferentHeadMeansUpdate(pat: string, sha: string, text: string)
    requires pat != [] && Text.Trimmed(text) && text != sha
    ensures CheckUpdates(Some(pat), Fetched(sha), CommitFile(text)).available == Some(true)
  {
    Text.StripTrimmed(text);
    StrippedDifferenceMeansUpdate(pat, sha, text);
  }

  /**
   A recorded commit holding a carriage return never matches itself: it
   reads back without one, so the update check against that very sha
   reports an update.
   */
  lemma CarriageReturnMeansUpdate(pat: string, st: Store)
    requires pat != [] && st.lastCommit.Some? && '\r' in st.lastCommit.value
    ensures CheckUpdates(Some(pat), Fetched(st.lastCommit.value), StoredCommitOf(st)).available == Some(true)
  {
    var c := StoredCommitOf(st);
    assert c.CommitFile? && '\r' !in c.text;
    var stripped := Text.Strip(c.text);
    var i :| Text.Surrounds(c.text, i, stripped);
    assert forall k :: 0 <= k < |stripped| ==> stripped[k] == c.text[i + k];
    assert '\r' !in stripped;
    StrippedDifferenceMeansUpdate(pat, st.lastCommit.value, c.text);
  }

  /** With no `.last_commit` file, any fetched head counts as an update. */
  lemma NeverDeployedMeansUpdate(pat: string, sha: string)
    requires pat != []
    ensures CheckUpdates(Some(pat), Fetched(sha), NoCommitFile).available == Some(true)
  {
  }
}

=== FILE: webhook.dfy ===
/**
 The `/webhook` handler (webhook.py:152-204) as one total function from the
 stored state, the configuration, the request and the answers of the
 outside world to the reply and the new state.
 */
module Webhook {
  import opened Base
  import opened Journal
  import Classifier
  import Signature
  import Updates
  import Text

  /** `GITHUB_SECRET`; empty when the variable is unset. */
  datatype Config = Config(secret: string)

  /** Whether `subprocess.Popen` launched the deploy script or raised. */
  datatype SpawnResult = Spawned | SpawnFailed(error: string)

  /**
   The fate of `.last_commit` while it is rewritten: written; `open(..., 'w')`
   raised, leaving the file as it was; or the file was opened, and so
   emptied, and the `write` or the closing flush raised, leaving it empty.
   */
  datatype WriteResult = Written | OpenFailed(error: string) | WriteFailed(error: string)

  /**
   What the outside world answers during one request: the hex HMAC-SHA256
   of the body under the secret, the fate of the spawn and of the write.
   */
  datatype Env = Env(digest: string, spawn: SpawnResult, commitWrite: WriteResult)

  /** The two headers the handler reads, and the JSON body. */
  datatype Request = Request(signatureHeader: Option<string>, eventHeader: Option<string>, payload: Classifier.Payload)

  /** The response bodies; `Forbidden` is the page `abort(403, ...)` produces. */
  datatype Body =
    | Pong
    | Ignored(reason: string)
    | DeploymentTriggered
    | DeployFailed(error: string)
    | EventIgnored
    | Forbidden(description: string)

  datatype Reply = Reply(code: int, body: Body)

  /** The reply, whether `Popen` was called, and the state afterwards. */
  datatype Handled = Handled(reply: Reply, spawnAttempted: bool, store: Store)

  const NoChangesReason := "No meaningful code changes detected"

  /**
   The `status` field of each JSON body, and the description of the 403
   abort. The five JSON statuses are distinct, so a client can tell the
   outcomes apart by the status alone.
   */
  function Status(b: Body): (s: string)
    ensures b.Forbidden? ==> s == b.description
    ensures !b.Forbidden? ==> s in {"pong", "ignored", "deployment triggered", "deploy failed", "ignored event"}
    ensures !b.Forbidden? ==> (s == "ignored" <==> b.Ignored?) && (s == "deploy failed" <==> b.DeployFailed?)
  {
    match b
    case Pong => "pong"
    case Ignored(_) => "ignored"
    case DeploymentTriggered => "deployment triggered"
    case DeployFailed(_) => "deploy failed"
    case EventIgnored => "ignored event"
    case Forbidden(d) => d
  }

  /** `request.headers.get("X-GitHub-Event", "ping")`. */
  function EventOf(req: Request): (event: string)
    ensures req.eventHeader.None? ==> event == "ping"
    ensures req.eventHeader.Some? ==> event == req.eventHeader.value
  {
    req.eventHeader.GetOr("ping")
  }

  /**
   Python truthiness of `request.json.get('after')`: a missing key gives
   `None` and the empty string is falsy, so only a non-empty `after` counts.
   */
  predicate HasAfter(p: Classifier.Payload): (b: bool)
    ensures p.after.None? ==> !b
    ensures p.after == Some("") ==> !b
    ensures b <==> p.after.Some? && |p.after.value| > 0
  {
    p.after.Some? && p.after.value != []
  }

  /** Whether this request, once past the signature check, is a push worth deploying. */
  predicate WantsDeploy(req: Request) {
    EventOf(req) == "push" && Classifier.IsMeaningful(Classifier.CommitsOf(req.payload))
  }

  /** The error a failed `.last_commit` rewrite raised. */
  function WriteError(w: WriteResult): string
    requires !w.Written?
  {
    match w
    case OpenFailed(e) => e
    case WriteFailed(e) => e
  }

  /**
   The deploy branch (webhook.py:188-201), entered after `Popen` was called.
   Its `try` block answers 200 only when the launch and, for a truthy
   `after`, the rewrite of `.last_commit` both succeed; any exception is
   answered 500 with its text. The recorded commit becomes `after` on a
   complete rewrite, empty after a truncating failure, and stays otherwise.
   */
  function Deploy(st: Store, req: Request, env: Env, now: Instant): (r: Handled)
    ensures r.spawnAttempted && r.store.lastPush == st.lastPush
    ensures r.reply.code == 200 <==> env.spawn.Spawned? && (!HasAfter(req.payload) || env.commitWrite.Written?)
    ensures r.reply.code == 200 ==> r.reply.body == DeploymentTriggered
    ensures r.reply.code != 200 ==>
      r.reply == Reply(500, DeployFailed(if env.spawn.SpawnFailed? then env.spawn.error else WriteError(env.commitWrite)))
    ensures r.store.lastCommit ==
      if !env.spawn.Spawned? || !HasAfter(req.payload) || env.commitWrite.OpenFailed? then st.lastCommit
      else if env.commitWrite.Written? then req.payload.after
      else Some("")
    ensures |r.store.log| >= |st.log| && r.store.log[..|st.log|] == st.log
    ensures r.store.log[|st.log|..] ==
      (if env.spawn.Spawned? then [LogEntry(now, DeployTriggered)] else [])
      + (if r.reply.code == 500 then [LogEntry(now, DeployScriptFailed(r.reply.body.error))] else [])
  {
    match env.spawn
    case SpawnFailed(e) =>
      Handled(Reply(500, DeployFailed(e)), true, Record(st, now, [DeployScriptFailed(e)]))
    case Spawned =>
      if !HasAfter(req.payload) then
        Handled(Reply(200, DeploymentTriggered), true, Record(st, now, [DeployTriggered]))
      else
        match env.commitWrite
        case Written =>
          Handled(Reply(200, DeploymentTriggered), true,
                  Record(st.(lastCommit := req.payload.after), now, [DeployTriggered]))
        case OpenFailed(e) =>
          Handled(Reply(500, DeployFailed(e)), true, Record(st, now, [DeployTriggered, DeployScriptFailed(e)]))
        case WriteFailed(e) =>
          Handled(Reply(500, DeployFailed(e)), true,
                  Record(st.(lastCommit := Some("")), now, [DeployTriggered, DeployScriptFailed(e)]))
  }

  /**
   `webhook()`. Its contract gathers what holds of every request: the push
   timestamp moves first, even for a refused request; the log only grows,
   by at least one entry stamped now; 403 means exactly a configured secret
   and a mismatching signature; the deploy script is launched exactly for a
   verified, meaningful push; 500 means exactly a failed deploy; a 200
   carries one of the four success statuses; and the recorded commit
   changes only during a launched deploy with a truthy `after`: to that
   `after` when the deploy is reported triggered, and otherwise only to
   the empty text a truncating write failure leaves.
   */
  function Handle(st: Store, cfg: Config, req: Request, env: Env, now: Instant): (r: Handled)
    ensures r.store.lastPush == Some(now)
    ensures |r.store.log| > |st.log| && r.store.log[..|st.log|] == st.log
    ensures forall k :: |st.log| <= k < |r.store.log| ==> r.store.log[k].at == now
    ensures r.reply.code in {200, 403, 500}
    ensures r.reply.code == 403 <==> !Signature.Accepts(cfg.secret, req.signatureHeader, env.digest)
    ensures r.reply.code == 500 <==> r.reply.body.DeployFailed?
    ensures r.spawnAttempted <==> Signature.Accepts(cfg.secret, req.signatureHeader, env.digest) && WantsDeploy(req)
    ensures r.reply.code == 200 <==> Status(r.reply.body) in {"pong", "ignored", "deployment triggered", "ignored event"}
    ensures r.reply == Reply(200, DeploymentTriggered) && HasAfter(req.payload) ==> r.store.lastCommit == req.payload.after
    ensures r.store.lastCommit != st.lastCommit ==>
      && r.spawnAttempted && env.spawn.Spawned? && HasAfter(req.payload)
      && (if r.reply.code == 200 then r.reply.body == DeploymentTriggered && r.store.lastCommit == req.payload.after
          else env.commitWrite.WriteFailed? && r.store.lastCommit == Some(""))
    ensures r.reply.code != 200 && !env.commitWrite.WriteFailed? ==> r.store.lastCommit == st.lastCommit
  {
    var touched := st.(lastPush := Some(now));
    if !Signature.Accepts(cfg.secret, req.signatureHeader, env.digest) then
      Handled(Reply(403, Forbidden("Invalid signature")), false, Record(touched, now, [InvalidSignature]))
    else
      var event := EventOf(req);
      if event == "ping" then
        Handled(Reply(200, Pong), false, Record(touched, now, [PingReceived]))
      else if event == "push" then
        if !Classifier.IsMeaningful(Classifier.CommitsOf(req.payload)) then
          Handled(Reply(200, Ignored(NoChangesReason)), false, Record(touched, now, [NoMeaningfulChanges]))
        else
          Deploy(touched, req, env, now)
      else
        Handled(Reply(200, EventIgnored), false, Record(touched, now, [IgnoredEvent(event)]))
  }

  /** The state a request leaves behind when it neither deploys nor records a commit. */
  function Untouched(st: Store, now: Instant, msg: LogMessage): Store {
    Record(st.(lastPush := Some(now)), now, [msg])
  }

  /** A refused request still moves the push timestamp, logs once, and changes nothing else. */
  lemma RefusedRequest(st: Store, cfg: Config, req: Request, env: Env, now: Instant)
    requires !Signature.Accepts(cfg.secret, req.signatureHeader, env.digest)
    ensures cfg.secret != []
    ensures Handle(st, cfg, req, env, now) == Handled(Reply(403, Forbidden("Invalid signature")), false, Untouched(st, now, InvalidSignature))
  {
  }

  /** Open mode: with no secret configured no request is refused, whatever its headers. */
  lemma OpenModeNeverRefuses(st: Store, req: Request, env: Env, now: Instant)
    ensures Handle(st, Config(""), req, env, now).reply.code != 403
  {
  }

  /** A `ping`, or a request without an event header, is answered `pong` without looking at the body. */
  lemma PingIsPong(st: Store, cfg: Config, req: Request, env: Env, now: Instant)
    requires Signature.Accepts(cfg.secret, req.signatureHeader, env.digest)
    requires req.eventHeader == None || req.eventHeader == Some("ping")
    ensures Handle(st, cfg, req, env, now) == Handled(Reply(200, Pong), false, Untouched(st, now, PingReceived))
  {
  }

  /** Any event other than `ping` and `push`, the empty name included, is logged and ignored. */
  lemma OtherEventIgnored(st: Store, cfg: Config, req: Request, env: Env, now: Instant)
    requires Signature.Accepts(cfg.secret, req.signatureHeader, env.digest)
    requires req.eventHeader.Some? && req.eventHeader.value != "ping" && req.eventHeader.value != "push"
    ensures Handle(st, cfg, req, env, now) ==
      Handled(Reply(200, EventIgnored), false, Untouched(st, now, IgnoredEvent(req.eventHeader.value)))
  {
  }

  /** A push with no meaningful change is ignored: 200, nothing launched, commit kept. */
  lemma QuietPushIgnored(st: Store, cfg: Config, req: Request, env: Env, now: Instant)
    requires Signature.Accepts(cfg.secret, req.signatureHeader, env.digest)
    requires EventOf(req) == "push"
    requires !Classifier.HasCountingChange(Classifier.CommitsOf(req.payload))
    ensures Handle(st, cfg, req, env, now) ==
      Handled(Reply(200, Ignored(NoChangesReason)), false, Untouched(st, now, NoMeaningfulChanges))
  {
  }

  /**
   A meaningful push whose script launches is reported triggered; the
   recorded commit becomes `after` when that is truthy and stays otherwise.
   */
  lemma LaunchedPush(st: Store, cfg: Config, req: Request, env: Env, now: Instant)
    requires Signature.Accepts(cfg.secret, req.signatureHeader, env.digest)
    requires WantsDeploy(req)
    requires env.spawn == Spawned
    requires !HasAfter(req.payload) || env.commitWrite == Written
    ensures var r := Handle(st, cfg, req, env, now);
      && r.reply == Reply(200, DeploymentTriggered)
      && r.spawnAttempted
      && r.store.lastCommit == (if HasAfter(req.payload) then req.payload.after else st.lastCommit)
      && r.store.log == st.log + [LogEntry(now, DeployTriggered)]
  {
  }

  /** A meaningful push whose script fails to launch is a 500 and keeps the recorded commit. */
  lemma FailedLaunch(st: Store, cfg: Config, req: Request, env: Env, now: Instant, e: string)
    requires Signature.Accepts(cfg.secret, req.signatureHeader, env.digest)
    requires WantsDeploy(req)
    requires env.spawn == SpawnFailed(e)
    ensures Handle(st, cfg, req, env, now) ==
      Handled(Reply(500, DeployFailed(e)), true, Untouched(st, now, DeployScriptFailed(e)))
  {
  }

  /**
   When the script launched but `.last_commit` could not be opened, the
   shared `try` block reports "deploy failed" with a 500 although the
   deploy is running, logs both messages, and the file keeps its contents.
   */
  lemma CommitOpenFailure(st: Store, cfg: Config, req: Request, env: Env, now: Instant, e: string)
    requires Signature.Accepts(cfg.secret, req.signatureHeader, env.digest)
    requires WantsDeploy(req) && HasAfter(req.payload)
    requires env.spawn == Spawned && env.commitWrite == OpenFailed(e)
    ensures var r := Handle(st, cfg, req, env, now);
      && r.reply == Reply(500, DeployFailed(e))
      && r.spawnAttempted
      && r.store.lastCommit == st.lastCommit
      && r.store.log == st.log + [LogEntry(now, DeployTriggered), LogEntry(now, DeployScriptFailed(e))]
  {
  }

  /**
   When `.last_commit` was opened, and so emptied, but the write failed,
   the reply is the same 500 and the file is left empty.
   */
  lemma CommitWriteFailure(st: Store, cfg: Config, req: Request, env: Env, now: Instant, e: string)
    requires Signature.Accepts(cfg.secret, req.signatureHeader, env.digest)
    requires WantsDeploy(req) && HasAfter(req.payload)
    requires env.spawn == Spawned && env.commitWrite == WriteFailed(e)
    ensures var r := Handle(st, cfg, req, env, now);
      && r.reply == Reply(500, DeployFailed(e))
      && r.spawnAttempted
      && r.store.lastCommit == Some("")
      && r.store.log == st.log + [LogEntry(now, DeployTriggered), LogEntry(now, DeployScriptFailed(e))]
  {
  }

  /** After a truncating write failure the update check reports an update for any non-empty head. */
  lemma EmptiedCommitMeansUpdate(st: Store, cfg: Config, req: Request, env: Env, now: Instant, pat: string, sha: string)
    requires Signature.Accepts(cfg.secret, req.signatureHeader, env.digest)
    requires WantsDeploy(req) && HasAfter(req.payload)
    requires env.spawn == Spawned && env.commitWrite.WriteFailed?
    requires pat != [] && sha != []
    ensures var r := Handle(st, cfg, req, env, now);
      Updates.CheckUpdates(Some(pat), Updates.Fetched(sha), Updates.StoredCommitOf(r.store)).available == Some(true)
  {
    CommitWriteFailure(st, cfg, req, env, now, env.commitWrite.error);
    var stored := Updates.StoredCommitOf(Handle(st, cfg, req, env, now).store);
    assert stored == Updates.CommitFile("");
    Updates.DifferentHeadMeansUpdate(pat, sha, "");
  }

  /** A push touching only documentation is ignored and keeps the recorded commit. */
  lemma DocumentationPushScenario(st: Store, now: Instant)
    ensures var req := Request(None, Some("push"), Classifier.Payload(Some([Classifier.Commit(Some(["docs/readme.md"]))]), None));
      var r := Handle(st, Config(""), req, Env("", Spawned, Written), now);
      r.reply == Reply(200, Ignored(NoChangesReason)) && !r.spawnAttempted && r.store.lastCommit == st.lastCommit
  {
    Classifier.ReadmeIsDocumentation();
    Classifier.SingleCommit(["docs/readme.md"]);
  }

  /** A push touching code deploys and records its `after`. */
  lemma CodePushScenario(st: Store, now: Instant)
    ensures var req := Request(None, Some("push"), Classifier.Payload(Some([Classifier.Commit(Some(["src/main.go"]))]), Some("deadbeef")));
      var r := Handle(st, Config(""), req, Env("", Spawned, Written), now);
      r.reply == Reply(200, DeploymentTriggered) && r.spawnAttempted && r.store.lastCommit == Some("deadbeef")
  {
    Classifier.CodeCounts();
    Classifier.SingleCommit(["src/main.go"]);
  }

  /** With a secret configured, a signature that is not the digest is refused and nothing is launched. */
  lemma BadSignatureScenario(st: Store, now: Instant)
    ensures var req := Request(Some("sha256=0000"), Some("push"), Classifier.Payload(Some([Classifier.Commit(Some(["src/main.go"]))]), Some("deadbeef")));
      var r := Handle(st, Config("s3cret"), req, Env("abcd", Spawned, Written), now);
      r.reply.code == 403 && !r.spawnAttempted && r.store.lastCommit == st.lastCommit
  {
    Signature.ExtractPrefixed("sha256", "0000");
    assert !Signature.Accepts("s3cret", Some("sha256=0000"), "abcd");
  }

  /**
   After a push that deployed and recorded a trimmed `after` free of
   carriage returns, the update check against that same head of `main`
   reports no update.
   */
  lemma DeployedHeadIsCurrent(st: Store, cfg: Config, req: Request, env: Env, now: Instant, pat: string)
    requires Signature.Accepts(cfg.secret, req.signatureHeader, env.digest)
    requires WantsDeploy(req) && HasAfter(req.payload) && Text.Trimmed(req.payload.after.value)
    requires '\r' !in req.payload.after.value
    requires env.spawn == Spawned && env.commitWrite == Written
    requires pat != []
    ensures var r := Handle(st, cfg, req, env, now);
      Updates.CheckUpdates(Some(pat), Updates.Fetched(req.payload.after.value), Updates.StoredCommitOf(r.store)).available == Some(false)
  {
    Text.StripTrimmed(req.payload.after.value);
  }

  /**
   An instance of `Updates.CarriageReturnMeansUpdate`: a deployed `after`
   of `a\rb` reads back as `a\nb`, so the update check reports an update
   against the very head that was just deployed.
   */
  lemma CarriageReturnHeadLooksNew(st: Store, now: Instant)
    ensures var req := Request(None, Some("push"), Classifier.Payload(Some([Classifier.Commit(Some(["src/main.go"]))]), Some("a\rb")));
      var r := Handle(st, Config(""), req, Env("", Spawned, Written), now);
      r.store.lastCommit == Some("a\rb")
      && Updates.CheckUpdates(Some("token"), Updates.Fetched("a\rb"), Updates.StoredCommitOf(r.store)).available == Some(true)
  {
    var req := Request(None, Some("push"), Classifier.Payload(Some([Classifier.Commit(Some(["src/main.go"]))]), Some("a\rb")));
    var env := Env("", Spawned, Written);
    Classifier.CodeCounts();
    Classifier.SingleCommit(["src/main.go"]);
    assert WantsDeploy(req);
    LaunchedPush(st, Config(""), req, env, now);
    var r := Handle(st, Config(""), req, env, now);
    assert r.store.lastCommit == Some("a\rb") && "a\rb"[1] == '\r';
    Updates.CarriageReturnMeansUpdate("token", r.store);
  }
}
